=== FILE: README.md ===
# Session view process tree and ServiceNow request helpers, in Dafny

This project models two pieces of Kibana:

- **The process-tree node and page feeding of the session view.** A session is shown as a forest of process nodes. Each node keeps an append-only event log, deduplicated by event id. It also keeps an alert log, child and orphan lists, and a parent link. From these it derives:
  - its details (the most recent fork, exec or end event),
  - two noise and interest heuristics (`isVerbose`, `isUserEntered`),
  - the flags `hasExec`, `hasExited`, `hasOutput` and `hasAlert(s)`,
  - its end time,
  - its ancestry (`isDescendantOf`),
  - the filtered, sorted child list the view renders (`getChildren`).

  The enclosing hook feeds pages of events into the tree. It skips every page whose cursor was processed before.
- **The ServiceNow connector's request helpers:**
  - renaming incident fields for the new API (`prepareIncident`),
  - formatting an error response (`createErrorMessage`),
  - validating a requested sub-action (`throwIfSubActionIsNotSupported`).

Representation:

- The process map is an arena: `map<string, Node>` keyed by entity id.
- Children, orphans and the parent are entity ids, so JavaScript reference identity (`parent === process`) becomes id equality.
- Acyclicity of the parent links is witnessed by a ghost `rank: map<string, nat>` that strictly decreases from a node to its parent (`ProcessTree.Ranked`). The ancestor walk is total under it.
- An absent ECS field is `Option.None`. Option equality matches JavaScript `===` on `undefined`, so two events without an id count as duplicates.
- `processNewEvents`, `autoExpandProcessTree` and the `sortProcesses` comparator are defined in files that are not part of this model. They are function parameters.
- The ServiceNow `FIELD_PREFIX` is a configuration constant that is not part of this model. It is the parameter `fieldPrefix`.

Files:

- `wrappers.dfy`: `Option` and `Outcome`.
- `process_events.dfy`: events and the scans over an event log.
- `process_node.dfy`: the node and its derived answers.
- `process_tree.dfy`: the arena, `isDescendantOf` and `getChildren`.
- `page_sync.dfy`: the cursor-dedup effect.
- `servicenow_utils.dfy`: the ServiceNow helpers.

Where the code and its own comments differ, the model follows the code:

- **Details do not stick to the end event.** The comment at hooks.ts:240 says a process's end event "will always be returned" as its details. In fact `getDetails` returns the last fork, exec or end event in log order. An exec or fork logged after an end event replaces it (`ProcessEvents.ExecAfterEndIsDetails`). The end event stays the details only while nothing but non-lifecycle events follows it (`ProcessEvents.EndStaysDetails`).
- **Alerts do not keep an empty node.** The comment at hooks.ts:92 says processes with alerts are never filtered out. In fact the non-verbose filter drops a node with an empty event log before it looks at `autoExpand` or alerts. A node with alerts but no events is therefore hidden (`ProcessTree.AlertsDoNotRescueEmptyNodes`).

Two facts about the page effect that the model keeps:

- The cursor lookup at hooks.ts:302 searches only the pages processed before the current run. Two pages of one `data` batch that share a new cursor are therefore both processed.
- The call at hooks.ts:310 passes the orphans the run started with, for every page. The stored orphans are those returned by the last call.

## Model

| member | source | states |
|---|---|---|
| ProcessEvents.FindEventByAction | x-pack/plugins/session_view/public/components/process_tree/hooks.ts:208-210 | nothing is found iff no event has the action; otherwise the result is the first event with that action |
| ProcessEvents.GetDetails | x-pack/plugins/session_view/public/components/process_tree/hooks.ts:227-242 | absent (the empty record) iff the log has no fork/exec/end event; otherwise it is a lifecycle event and sits at the last lifecycle position of the log |
| ProcessEvents.LifecycleEvents | x-pack/plugins/session_view/public/components/process_tree/hooks.ts:234-236 | the filtered log is no longer than the log and holds only lifecycle events |
| ProcessEvents.LifecycleEventsMembers | x-pack/plugins/session_view/public/components/process_tree/hooks.ts:234-236 | an event is in the filtered log iff it is in the log and is a fork, exec or end event |
| ProcessEvents.LifecycleEventsAppend | x-pack/plugins/session_view/public/components/process_tree/hooks.ts:234-236 | the filter of two logs joined is the two filters joined, and a single event is kept iff it is a lifecycle event, so the filter keeps log order and every repeat |
| ProcessEvents.LifecycleEventsCount | x-pack/plugins/session_view/public/components/process_tree/hooks.ts:234-236 | every lifecycle event occurs in the filtered log as many times as in the log, and no other event occurs in it |
| ProcessEvents.LastOfLifecycleEvents | x-pack/plugins/session_view/public/components/process_tree/hooks.ts:234-241 | the filter is empty iff the log has no lifecycle event, and otherwise its last element is the last lifecycle event of the full log (the induction for the second half is `ProcessEvents.LastOfFiltered`) |
| ProcessEvents.LastOfFiltered | x-pack/plugins/session_view/public/components/process_tree/hooks.ts:234-241 | by induction on the log: the last element of a non-empty filtered log sits at the last lifecycle position of the full log |
| ProcessEvents.GetDetailsAppend | x-pack/plugins/session_view/public/components/process_tree/hooks.ts:227-242 | appending a lifecycle event makes it the details; appending any other event leaves the details as they were |
| ProcessEvents.EndStaysDetails | x-pack/plugins/session_view/public/components/process_tree/hooks.ts:238-241 | an end event followed only by non-lifecycle events is the details |
| ProcessEvents.ExecAfterEndIsDetails | x-pack/plugins/session_view/public/components/process_tree/hooks.ts:238-241 | for the log [end, exec] the details are the exec event, not the end event |
| ProcessNode.NewNode | x-pack/plugins/session_view/public/components/process_tree/hooks.ts:47-55 | a fresh node has empty event and alert logs, no parent, children or orphans, auto-expand off and no search mark; it has no exec, end or output; it counts as verbose and not user entered |
| ProcessNode.AddEvent | x-pack/plugins/session_view/public/components/process_tree/hooks.ts:57-67 | a logged event id leaves the node unchanged, otherwise the event is appended and nothing else changes; the id is logged afterwards; distinct ids stay distinct |
| ProcessNode.FindEventById | x-pack/plugins/session_view/public/components/process_tree/hooks.ts:60-62 | finds an event iff some logged event has the same (possibly absent) id, and what it finds is such an event |
| ProcessNode.AddEventIdempotent | x-pack/plugins/session_view/public/components/process_tree/hooks.ts:57-67 | adding an event twice is the same as adding it once |
| ProcessNode.AddAlert | x-pack/plugins/session_view/public/components/process_tree/hooks.ts:69-71 | the alert is appended whatever the log holds, nothing else changes, and the node has alerts afterwards |
| ProcessNode.ClearSearch | x-pack/plugins/session_view/public/components/process_tree/hooks.ts:73-75 | the search mark is reset and every other field is kept |
| ProcessNode.HasAlerts | x-pack/plugins/session_view/public/components/process_tree/hooks.ts:132-134 | true iff the alert log holds some alert; a node without alerts matches no uuid under hasAlert |
| ProcessNode.HasAlert | x-pack/plugins/session_view/public/components/process_tree/hooks.ts:136-142 | false for an absent or empty uuid; otherwise true iff some alert carries exactly that uuid |
| ProcessNode.AlertWithUuid | x-pack/plugins/session_view/public/components/process_tree/hooks.ts:141 | true iff some alert of the log carries the uuid |
| ProcessNode.HasAlertAfterAddAlert | x-pack/plugins/session_view/public/components/process_tree/hooks.ts:136-142 | after adding an alert, a non-empty uuid is found iff it was found before or the new alert carries it |
| ProcessNode.HasOutput | x-pack/plugins/session_view/public/components/process_tree/hooks.ts:128-130 | true iff some event is an output event |
| ProcessNode.HasExec | x-pack/plugins/session_view/public/components/process_tree/hooks.ts:152-154 | true iff some event is an exec event |
| ProcessNode.HasExited | x-pack/plugins/session_view/public/components/process_tree/hooks.ts:156-158 | true iff some event is an end event |
| ProcessNode.GetEndTime | x-pack/plugins/session_view/public/components/process_tree/hooks.ts:169-172 | empty when the node has not exited; otherwise the timestamp of the first end event, or empty when that timestamp is absent |
| ProcessNode.VerboseRule | x-pack/plugins/session_view/public/components/process_tree/hooks.ts:108-126 | a record-less node (the `{}` details) is verbose; the entry leader is never verbose; group and session leaders with different pids make it not verbose; for a non-entry-leader, a missing group or session leader, or group and session leaders with the same pid, make it verbose |
| ProcessNode.IsVerbose | x-pack/plugins/session_view/public/components/process_tree/hooks.ts:108-126 | a node without lifecycle events is verbose; otherwise it is verbose iff the rule holds of its last lifecycle event |
| ProcessNode.EntryLeaderNotVerbose | x-pack/plugins/session_view/public/components/process_tree/hooks.ts:119-123 | a node whose details name it as entry leader is never verbose |
| ProcessNode.UserEnteredRule | x-pack/plugins/session_view/public/components/process_tree/hooks.ts:181-201 | a record passes iff it has a tty, its parent has the session leader's pid, and the process is its own group leader; a missing record fails |
| ProcessNode.IsUserEntered | x-pack/plugins/session_view/public/components/process_tree/hooks.ts:181-201 | a node without lifecycle events is not user entered; otherwise it is iff the rule holds of its last lifecycle event |
| ProcessNode.HeuristicsAfterAddEvent | x-pack/plugins/session_view/public/components/process_tree/hooks.ts:108-201 | logging a non-lifecycle event changes neither heuristic; logging a lifecycle event re-decides both on that event |
| ProcessTree.IsDescendantOf | x-pack/plugins/session_view/public/components/process_tree/hooks.ts:244-256 | false for a node without parent, true when the target is the parent, and a positive answer means the target is a node ranked strictly below |
| ProcessTree.IsDescendantOfChain | x-pack/plugins/session_view/public/components/process_tree/hooks.ts:244-256 | the walk answers true iff the target is reached from the node by one or more parent links |
| ProcessTree.NotDescendantOfItself | x-pack/plugins/session_view/public/components/process_tree/hooks.ts:244-256 | under acyclic parents no node is its own descendant |
| ProcessTree.DescendantTransitive | x-pack/plugins/session_view/public/components/process_tree/hooks.ts:244-256 | a descendant of a descendant of c is a descendant of c |
| ProcessTree.IsDescendantOfRankIndependent | x-pack/plugins/session_view/public/components/process_tree/hooks.ts:244-256 | the answer does not depend on the acyclicity witness |
| ProcessTree.FilterShown | x-pack/plugins/session_view/public/components/process_tree/hooks.ts:86-103 | each id occurs as often as in the input if its node passes the non-verbose filter, and not at all otherwise |
| ProcessTree.Insert | x-pack/plugins/session_view/public/components/process_tree/hooks.ts:105 | the result is the list with one more occurrence of the inserted id |
| ProcessTree.Sort | x-pack/plugins/session_view/public/components/process_tree/hooks.ts:105 | sorting is a permutation |
| ProcessTree.GetChildren | x-pack/plugins/session_view/public/components/process_tree/hooks.ts:77-106 | in verbose mode a permutation of children followed by orphans; otherwise each candidate occurs as often as among the candidates iff it has events and auto-expands, has alerts or is not verbose, and not at all otherwise |
| ProcessTree.AlertsDoNotRescueEmptyNodes | x-pack/plugins/session_view/public/components/process_tree/hooks.ts:86-95 | in the non-verbose view a candidate without events is dropped even with alerts, and one with events and alerts is kept |
| ProcessTree.InsertSorted | x-pack/plugins/session_view/public/components/process_tree/hooks.ts:105 | under a total preorder, inserting into a sorted list keeps it sorted |
| ProcessTree.SortSorted | x-pack/plugins/session_view/public/components/process_tree/hooks.ts:105 | under a total preorder, sorting yields a list in comparator order |
| ProcessTree.GetChildrenSorted | x-pack/plugins/session_view/public/components/process_tree/hooks.ts:105 | under a total preorder comparator the children come out in comparator order |
| PageSync.CursorSeen | x-pack/plugins/session_view/public/components/process_tree/hooks.ts:302 | true iff some processed page has the same (possibly absent) cursor |
| PageSync.SweepPrefix | x-pack/plugins/session_view/public/components/process_tree/hooks.ts:301-320 | the loop processes at most one page per page of the batch, and leaves the map and the orphans as they were when it processes none (what it computes otherwise is stated by `PageSync.SweepIsApplyCalls`) |
| PageSync.UnseenCallsSound | x-pack/plugins/session_view/public/components/process_tree/hooks.ts:301-305 | every call the loop should make is for a batch page with an unseen cursor, at that page's own index, and the calls come in increasing index order |
| PageSync.UnseenCallsComplete | x-pack/plugins/session_view/public/components/process_tree/hooks.ts:301-305 | every batch page whose cursor was not processed before gets a call |
| PageSync.SweepIsApplyCalls | x-pack/plugins/session_view/public/components/process_tree/hooks.ts:301-320 | the loop is the fold of `processNewEvents` over exactly the unseen pages in batch order: each call gets the map of the previous call, the page's events, the orphans from before the run, the session entity id and `backwards` true iff the page's index is below the number of processed pages; the map and orphans of the last call are kept |
| PageSync.SweepNewPages | x-pack/plugins/session_view/public/components/process_tree/hooks.ts:301-320 | the pages processed by the loop are exactly the pages of the batch whose cursors were not processed before, in batch order |
| PageSync.UnseenMembers | x-pack/plugins/session_view/public/components/process_tree/hooks.ts:302-304 | every processed page comes from the batch with an unseen cursor, and every such page is processed |
| PageSync.LatePagesAreForward | x-pack/plugins/session_view/public/components/process_tree/hooks.ts:301-313 | the backwards flag depends only on the page's index: a batch whose first pages (as many as were processed before) are all seen is processed with every call forwards, so a first run never pages backwards |
| PageSync.SweepAllSeen | x-pack/plugins/session_view/public/components/process_tree/hooks.ts:301-320 | when every cursor was processed before, the loop calls nothing and leaves map and orphans as they were |
| PageSync.Commit | x-pack/plugins/session_view/public/components/process_tree/hooks.ts:322-327 | with no new page the state is unchanged; otherwise the processed pages are extended by the new ones, the orphans are those of the last call, the stored map has the swept map's processes, none added or removed by auto-expansion, each node the expansion leaves alone is stored as swept, and an expansion that changes nothing stores the swept map itself |
| PageSync.StoredCopy | x-pack/plugins/session_view/public/components/process_tree/hooks.ts:323-326 | the stored copy keeps the keys of the map from before expansion and holds, for each key, the node as the expansion left it; when the expansion changed no node the copy equals the map |
| PageSync.CommitFacts | x-pack/plugins/session_view/public/components/process_tree/hooks.ts:322-327 | the state update keeps the old processed pages as a prefix and appends exactly the unseen pages; it leaves the state alone when nothing was new |
| PageSync.SyncPages | x-pack/plugins/session_view/public/components/process_tree/hooks.ts:296-328 | processed pages grow by exactly the unseen pages in order; afterwards every cursor of the batch is processed; an all-seen batch changes nothing; otherwise the map and orphans are those of the fold of `processNewEvents` over the unseen pages (`PageSync.SweepIsApplyCalls`), committed by `PageSync.Commit` |
| PageSync.SyncPagesIdempotent | x-pack/plugins/session_view/public/components/process_tree/hooks.ts:299-327 | running the effect again on the same batch processes nothing and changes no state |
| PageSync.RunPageLoop | x-pack/plugins/session_view/public/components/process_tree/hooks.ts:301-320 | the forEach loop with its backwards flag computes the sweep definition over the whole batch |
| PageSync.RunPageEffect | x-pack/plugins/session_view/public/components/process_tree/hooks.ts:296-328 | the loop followed by the conditional state update computes the same state as the effect definition |
| ServiceNowUtils.PrepareIncident | x-pack/plugins/actions/server/builtin_action_types/servicenow/utils.ts:26-32 | the old API returns the incident unchanged; the new API renames every key to prefix + key with the same value; no key is lost or added |
| ServiceNowUtils.PrefixPreservesCount | x-pack/plugins/actions/server/builtin_action_types/servicenow/utils.ts:29-32 | the prefixed key set has as many keys as the original |
| ServiceNowUtils.PrefixInjective | x-pack/plugins/actions/server/builtin_action_types/servicenow/utils.ts:29-32 | different keys never get the same prefixed name |
| ServiceNowUtils.PrepareIncidentRoundTrip | x-pack/plugins/actions/server/builtin_action_types/servicenow/utils.ts:29-32 | stripping the prefix from the renamed incident gives back the incident |
| ServiceNowUtils.CreateErrorMessage | x-pack/plugins/actions/server/builtin_action_types/servicenow/utils.ts:34-43 | a null response and a response without error give fixed texts; otherwise the text is the message, ": ", then the detail |
| ServiceNowUtils.ErrorMessageFallbacksDistinct | x-pack/plugins/actions/server/builtin_action_types/servicenow/utils.ts:34-43 | the two fallback texts differ, and a formatted message not starting with "unknown" differs from both |
| ServiceNowUtils.ErrorMessageFallbackCollision | x-pack/plugins/actions/server/builtin_action_types/servicenow/utils.ts:34-43 | an error with message "unknown" and the rest of a fallback text as detail formats to that fallback, so the formatted text alone does not tell the cases apart |
| ServiceNowUtils.Truthy | x-pack/plugins/actions/server/builtin_action_types/servicenow/utils.ts:72 | a value is truthy iff it is none of undefined, null, false, 0 and the empty string |
| ServiceNowUtils.ApiHas | x-pack/plugins/actions/server/builtin_action_types/servicenow/utils.ts:72 | the api provides a sub-action iff the value under its name, undefined when absent, is truthy |
| ServiceNowUtils.ThrowIfSubActionIsNotSupported | x-pack/plugins/actions/server/builtin_action_types/servicenow/utils.ts:61-83 | passes iff the api value is truthy and the sub-action is supported; a falsy api value is rejected as unsupported, whatever the supported list; a truthy but unlisted one as not implemented |
| ServiceNowUtils.SubActionMessagesDistinct | x-pack/plugins/actions/server/builtin_action_types/servicenow/utils.ts:72-83 | the two rejection messages never coincide, and each determines its sub-action |

## Left out

- React state and effects: the `useState` cells, the alerts effect with its map copy (hooks.ts:330-338), the search effect (hooks.ts:340-342), storing the orphans on the session leader (hooks.ts:347) and the alert-status update loop (hooks.ts:350-355). They bind UI state or only call helpers that are not part of this model.
- `processNewEvents`, `searchProcessTree`, `autoExpandProcessTree`, `updateProcessMap`, `updateAlertEventStatus` and `sortProcesses` are not part of this model. `processNewEvents` and `autoExpandProcessTree`, which the page effect calls, are parameters. `sortProcesses` is a comparator parameter. Orphan re-parenting and search are not modelled.
- The synthetic session-leader event built from an informational event (hooks.ts:272-284) is left out. Besides merging object fields, it has two effects the model does not have. It reads `data[0]` on every render, so an empty `data` throws a TypeError before the page effect runs, while `PageSync.SyncPages` accepts an empty batch and returns the state unchanged. It also appends the event with `push`, bypassing the event-id check of `addEvent`.
- The `memoizeOne` wrappers are caches. The model computes the same values directly.
- `getAlerts`, `getOutput`, `getMaxAlertLevel`, `updateAlertsStatus`, `findEventByKind`, `filterEventsByAction` and `filterEventsByKind` are left out. Each returns a constant or a field, delegates to an unmodelled helper, or is not used by the modelled members. `event.kind` is not modelled for the same reason.
- ProcessTree.GetChildren: returns a new list and leaves the node unchanged. In the source, in verbose mode with no orphans, `children.sort` also reorders the node's own `children` array in place.
- ProcessTree.Sort: models `Array.prototype.sort` as a stable insertion sort under the comparator. For an inconsistent comparator, JavaScript leaves the order implementation-defined. Only the permutation holds then.
- ProcessTree.IsDescendantOf: requires acyclic parent links. On a parent chain that runs into a cycle, the source returns true when the target lies on the chain (cycle included) and loops forever otherwise. `ProcessTree.Ranked` also asks more than the source needs: every node of the map, not only those on the chain of `id`, must be ranked and have its parent in the map, while the source only needs the chain of `id` to end.
- PageSync.Commit: `autoExpandProcessTree` changes node objects in place and its result is dropped (hooks.ts:323-326). The model takes the helper as a function that returns the expanded map, and the stored map keeps the keys of the map copied before expansion, with the node of each key as the helper returns it. This is exact when the helper only changes the nodes it is given; nodes it adds under new keys are not stored, as in the source.
- ProcessTree.GetChildren: requires `ProcessTree.WellFormed`, which says every node is stored under its own entity id, and `ProcessTree.RelativesKnown`, which says every child and orphan id is a key of the map. The source has no keys, only object references, so the arena needs both to stand for the source's objects.
- PageSync.SyncPages: a page's `events` is always a list. A page without `events` is not modelled.
- ServiceNowUtils.ThrowIfSubActionIsNotSupported: reads only the api's own keys. Properties inherited from `Object.prototype` (for example `toString`) are truthy in the source. They pass its first check and are then rejected as not implemented, not as unsupported.
- ServiceNowUtils.Truthy: numbers are integers, so `NaN` and fractions are not modelled.
- ServiceNowUtils.CreateErrorMessage: `message` and `detail` are strings, as their declared types say. Missing values that would print as `undefined` are not modelled.
- The logger calls of `throwIfSubActionIsNotSupported` are left out. The model has no logging.
- `getAxiosInstance` with its OAuth interceptor, `createServiceError` and `getPushedDate` are left out. They use HTTP clients, message translation and the clock.

=== FILE: page_sync.dfy ===
/** The page-feeding effect of `useProcessTree`
    (x-pack/plugins/session_view/public/components/process_tree/hooks.ts):
    every page of `data` whose cursor has not been processed yet is handed to
    `processNewEvents`, and the processed-pages list grows by those pages.
    `processNewEvents` and `autoExpandProcessTree` are not part of this model;
    they are parameters. */
module PageSync {
  import opened Wrappers
  import opened ProcessEvents
  import opened ProcessTree

  /** A page of events and the cursor that identifies it. */
  datatype ProcessEventsPage = ProcessEventsPage(events: seq<ProcessEvent>, cursor: Option<string>)

  /** The state the effect reads and writes: the process map, the pages
      processed so far, and the orphans list. */
  datatype TreeState = TreeState(processMap: Tree, processedPages: seq<ProcessEventsPage>, orphans: seq<string>)

  /** `processNewEvents(map, events, orphans, sessionEntityId, backwards)`,
      returning the new map and the new orphans. */
  type ProcessNewEvents = (Tree, seq<ProcessEvent>, seq<string>, string, bool) -> (Tree, seq<string>)

  /** `autoExpandProcessTree(map, jumpToEntityId)`. */
  type AutoExpand = (Tree, Option<string>) -> Tree

  /** The running values of the `forEach` over `data`: the map, the orphans
      and the pages processed during this run. */
  datatype Sweep = Sweep(processMap: Tree, orphans: seq<string>, newPages: seq<ProcessEventsPage>)

  /** Whether some processed page carries the cursor `cursor` (the lookup at
      the head of the page loop); absent cursors compare equal. */
  function CursorSeen(pages: seq<ProcessEventsPage>, cursor: Option<string>): (r: bool)
    ensures r <==> exists i :: 0 <= i < |pages| && pages[i].cursor == cursor
  {
    if |pages| == 0 then false
    else
      assert forall i :: 0 < i < |pages| ==> pages[i] == pages[1..][i - 1];
      pages[0].cursor == cursor || CursorSeen(pages[1..], cursor)
  }

  /** The pages of `data`, in order, whose cursor is not among `seen`'s. */
  ghost function Unseen(seen: seq<ProcessEventsPage>, data: seq<ProcessEventsPage>): seq<ProcessEventsPage>
  {
    if |data| == 0 then []
    else
      var init := Unseen(seen, data[..|data| - 1]);
      var last := data[|data| - 1];
      if exists i :: 0 <= i < |seen| && seen[i].cursor == last.cursor then init else init + [last]
  }

  /** One call of `processNewEvents` in the page loop: the index of the page
      in `data` (which decides the `backwards` flag) and the page. */
  datatype Call = Call(index: nat, page: ProcessEventsPage)

  /** The calls the loop over the first `k` pages of `data` should make: one
      per page whose cursor is not among `seen`'s, in batch order. */
  ghost function UnseenCalls(seen: seq<ProcessEventsPage>, data: seq<ProcessEventsPage>, k: nat): seq<Call>
    requires k <= |data|
  {
    if k == 0 then []
    else
      var init := UnseenCalls(seen, data, k - 1);
      if CursorSeen(seen, data[k - 1].cursor) then init
      else init + [Call(k - 1, data[k - 1])]
  }

  /** Every call is for an unseen page of `data[..k]`, at that page's own
      index, and the indices strictly increase. */
  lemma {:induction false} UnseenCallsSound(seen: seq<ProcessEventsPage>, data: seq<ProcessEventsPage>, k: nat, j: nat)
    requires k <= |data| && j < |UnseenCalls(seen, data, k)|
    ensures UnseenCalls(seen, data, k)[j].index < k
    ensures data[UnseenCalls(seen, data, k)[j].index] == UnseenCalls(seen, data, k)[j].page
    ensures !CursorSeen(seen, UnseenCalls(seen, data, k)[j].page.cursor)
    ensures forall j2 | j < j2 < |UnseenCalls(seen, data, k)| ::
      UnseenCalls(seen, data, k)[j].index < UnseenCalls(seen, data, k)[j2].index
  {
    var init := UnseenCalls(seen, data, k - 1);
    if CursorSeen(seen, data[k - 1].cursor) {
      assert UnseenCalls(seen, data, k) == init;
      UnseenCallsSound(seen, data, k - 1, j);
    } else {
      var calls := init + [Call(k - 1, data[k - 1])];
      assert UnseenCalls(seen, data, k) == calls;
      if j < |init| {
        UnseenCallsSound(seen, data, k - 1, j);
        assert calls[j] == init[j];
        forall j2 | j < j2 < |calls|
          ensures calls[j].index < calls[j2].index
        {
          if j2 < |init| {
            assert calls[j2] == init[j2];
          }
        }
      }
    }
  }

  /** Every unseen page of `data[..k]` is called. */
  lemma {:induction false} UnseenCallsComplete(seen: seq<ProcessEventsPage>, data: seq<ProcessEventsPage>, k: nat, i: nat)
    requires i < k <= |data| && !CursorSeen(seen, data[i].cursor)
    ensures exists j :: 0 <= j < |UnseenCalls(seen, data, k)| && UnseenCalls(seen, data, k)[j].index == i
  {
    var init := UnseenCalls(seen, data, k - 1);
    var calls := init + [Call(k - 1, data[k - 1])];
    if i == k - 1 {
      assert UnseenCalls(seen, data, k) == calls;
      assert calls[|init|].index == i;
    } else {
      UnseenCallsComplete(seen, data, k - 1, i);
      var j :| 0 <= j < |init| && init[j].index == i;
      if CursorSeen(seen, data[k - 1].cursor) {
        assert UnseenCalls(seen, data, k) == init;
      } else {
        assert UnseenCalls(seen, data, k) == calls;
        assert calls[j] == init[j];
      }
    }
  }

  /** The sweep as a fold of the given calls over the starting state: every
      call receives the orphans the run started with and the `backwards` flag
      of its index, and the map and orphans of the last call are kept. */
  ghost function ApplyCalls(st: TreeState, calls: seq<Call>, sessionEntityId: string,
                            processNewEvents: ProcessNewEvents): Sweep
  {
    if |calls| == 0 then Sweep(st.processMap, st.orphans, [])
    else
      var acc := ApplyCalls(st, calls[..|calls| - 1], sessionEntityId, processNewEvents);
      var c := calls[|calls| - 1];
      var result := processNewEvents(acc.processMap, c.page.events, st.orphans, sessionEntityId, c.index < |st.processedPages|);
      Sweep(result.0, result.1, acc.newPages + [c.page])
  }

  /** The `forEach` over the first `k` pages of `data`. Every unseen page is
      processed; the `backwards` flag is whether its index in `data` is below
      the number of pages processed before this run; every call receives the
      orphans the run started with. */
  function SweepPrefix(st: TreeState, data: seq<ProcessEventsPage>, k: nat, sessionEntityId: string,
                       processNewEvents: ProcessNewEvents): (r: Sweep)
    requires k <= |data|
    ensures |r.newPages| <= k
    ensures |r.newPages| == 0 ==> r.processMap == st.processMap && r.orphans == st.orphans
  {
    if k == 0 then Sweep(st.processMap, st.orphans, [])
    else
      var acc := SweepPrefix(st, data, k - 1, sessionEntityId, processNewEvents);
      var page := data[k - 1];
      if CursorSeen(st.processedPages, page.cursor) then acc
      else
        var backwards := k - 1 < |st.processedPages|;
        var result := processNewEvents(acc.processMap, page.events, st.orphans, sessionEntityId, backwards);
        Sweep(result.0, result.1, acc.newPages + [page])
  }

  /** One more page of the sweep: skipped when its cursor was processed
      before, otherwise handed to `processNewEvents` and recorded. */
  lemma SweepStep(st: TreeState, data: seq<ProcessEventsPage>, i: nat, sessionEntityId: string,
                  processNewEvents: ProcessNewEvents)
    requires i < |data|
    ensures
      var acc := SweepPrefix(st, data, i, sessionEntityId, processNewEvents);
      var result := processNewEvents(acc.processMap, data[i].events, st.orphans, sessionEntityId, i < |st.processedPages|);
      SweepPrefix(st, data, i + 1, sessionEntityId, processNewEvents) ==
        if CursorSeen(st.processedPages, data[i].cursor) then acc
        else Sweep(result.0, result.1, acc.newPages + [data[i]])
  {
  }

  /** The sweep makes exactly the calls `UnseenCalls` lists, in that order:
      a page whose cursor was processed before never reaches
      `processNewEvents`, and the map and orphans are those of the last call. */
  lemma {:induction false} SweepIsApplyCalls(st: TreeState, data: seq<ProcessEventsPage>, k: nat, sessionEntityId: string,
                                             processNewEvents: ProcessNewEvents)
    requires k <= |data|
    ensures SweepPrefix(st, data, k, sessionEntityId, processNewEvents) ==
            ApplyCalls(st, UnseenCalls(st.processedPages, data, k), sessionEntityId, processNewEvents)
  {
    if k > 0 {
      SweepIsApplyCalls(st, data, k - 1, sessionEntityId, processNewEvents);
      var init := UnseenCalls(st.processedPages, data, k - 1);
      if !CursorSeen(st.processedPages, data[k - 1].cursor) {
        var calls := init + [Call(k - 1, data[k - 1])];
        assert calls[..|calls| - 1] == init;
      }
    }
  }

  /** The pages a sweep processes are exactly the unseen pages, in order. */
  lemma {:induction false} SweepNewPages(st: TreeState, data: seq<ProcessEventsPage>, k: nat, sessionEntityId: string,
                                         processNewEvents: ProcessNewEvents)
    requires k <= |data|
    ensures SweepPrefix(st, data, k, sessionEntityId, processNewEvents).newPages == Unseen(st.processedPages, data[..k])
  {
    if k > 0 {
      SweepNewPages(st, data, k - 1, sessionEntityId, processNewEvents);
      assert data[..k][..k - 1] == data[..k - 1];
    }
  }

  /** What `Unseen` picks: only pages of `data` with unseen cursors, and every
      such page. */
  lemma {:induction false} UnseenMembers(seen: seq<ProcessEventsPage>, data: seq<ProcessEventsPage>)
    ensures forall p | p in Unseen(seen, data) :: p in data && !CursorSeen(seen, p.cursor)
    ensures forall p | p in data && !CursorSeen(seen, p.cursor) :: p in Unseen(seen, data)
  {
    if |data| > 0 {
      var init := data[..|data| - 1];
      UnseenMembers(seen, init);
      assert data == init + [data[|data| - 1]];
    }
  }

  /** `processNewEvents` with the `backwards` flag forced off. */
  function Forward(processNewEvents: ProcessNewEvents): ProcessNewEvents {
    (m: Tree, events: seq<ProcessEvent>, orphans: seq<string>, sessionEntityId: string, backwards: bool) =>
      processNewEvents(m, events, orphans, sessionEntityId, false)
  }

  /** Whether a page is processed backwards depends on its index alone: the
      pages at or past the number of pages processed before the run are
      processed forwards. In particular, nothing is processed backwards on
      the first run. */
  lemma {:induction false} LatePagesAreForward(st: TreeState, data: seq<ProcessEventsPage>, k: nat, sessionEntityId: string,
                                               processNewEvents: ProcessNewEvents)
    requires k <= |data|
    requires forall i :: 0 <= i < |data| && i < |st.processedPages| ==> CursorSeen(st.processedPages, data[i].cursor)
    ensures SweepPrefix(st, data, k, sessionEntityId, processNewEvents) ==
            SweepPrefix(st, data, k, sessionEntityId, Forward(processNewEvents))
  {
    if k > 0 {
      LatePagesAreForward(st, data, k - 1, sessionEntityId, processNewEvents);
    }
  }

  /** A sweep over pages that were all processed before changes nothing. */
  lemma {:induction false} SweepAllSeen(st: TreeState, data: seq<ProcessEventsPage>, k: nat, sessionEntityId: string,
                                        processNewEvents: ProcessNewEvents)
    requires k <= |data|
    requires forall i :: 0 <= i < |data| ==> CursorSeen(st.processedPages, data[i].cursor)
    ensures SweepPrefix(st, data, k, sessionEntityId, processNewEvents) == Sweep(st.processMap, st.orphans, [])
  {
    if k > 0 {
      SweepAllSeen(st, data, k - 1, sessionEntityId, processNewEvents);
    }
  }

  /** The map the effect stores: `setProcessMap` receives a copy of the map
      taken before `autoExpandProcessTree` runs, and the helper's result is
      dropped. The copy shares its node objects with the map the helper
      changes, so it keeps its own keys and sees the expanded node of each. */
  function StoredCopy(before: Tree, expanded: Tree): (r: Tree)
    ensures r.Keys == before.Keys
    ensures forall k | k in before && k in expanded :: r[k] == expanded[k]
    ensures forall k | k in before && k !in expanded :: r[k] == before[k]
    ensures (forall k | k in before && k in expanded :: expanded[k] == before[k]) ==> r == before
  {
    map k | k in before :: if k in expanded then expanded[k] else before[k]
  }

  /** The state update after the sweep: untouched when no page was new;
      otherwise the copy of the swept map with its nodes auto-expanded, the
      processed pages extended by the new pages, and the orphans of the last
      call. Auto-expansion neither adds nor removes a process. */
  function Commit(st: TreeState, sweep: Sweep, jumpToEntityId: Option<string>, autoExpand: AutoExpand): (r: TreeState)
    ensures |sweep.newPages| == 0 ==> r == st
    ensures |sweep.newPages| > 0 ==> r.processedPages == st.processedPages + sweep.newPages && r.orphans == sweep.orphans
    ensures |sweep.newPages| > 0 ==> r.processMap.Keys == sweep.processMap.Keys
    ensures |sweep.newPages| > 0 ==>
      var expanded := autoExpand(sweep.processMap, jumpToEntityId);
      forall k | k in sweep.processMap && (k !in expanded || expanded[k] == sweep.processMap[k]) ::
        r.processMap[k] == sweep.processMap[k]
    ensures |sweep.newPages| > 0 && autoExpand(sweep.processMap, jumpToEntityId) == sweep.processMap ==>
      r.processMap == sweep.processMap
  {
    if |sweep.newPages| > 0 then
      TreeState(StoredCopy(sweep.processMap, autoExpand(sweep.processMap, jumpToEntityId)),
                st.processedPages + sweep.newPages, sweep.orphans)
    else st
  }

  lemma {:induction false} CommitFacts(st: TreeState, data: seq<ProcessEventsPage>, sessionEntityId: string, jumpToEntityId: Option<string>,
                                       processNewEvents: ProcessNewEvents, autoExpand: AutoExpand)
    ensures
      var r := Commit(st, SweepPrefix(st, data, |data|, sessionEntityId, processNewEvents), jumpToEntityId, autoExpand);
      && |st.processedPages| <= |r.processedPages|
      && r.processedPages[..|st.processedPages|] == st.processedPages
      && r.processedPages[|st.processedPages|..] == Unseen(st.processedPages, data)
      && (forall i :: 0 <= i < |data| ==> CursorSeen(r.processedPages, data[i].cursor))
      && ((forall i :: 0 <= i < |data| ==> CursorSeen(st.processedPages, data[i].cursor)) ==> r == st)
  {
    var sweep := SweepPrefix(st, data, |data|, sessionEntityId, processNewEvents);
    var r := Commit(st, sweep, jumpToEntityId, autoExpand);
    SweepNewPages(st, data, |data|, sessionEntityId, processNewEvents);
    assert data[..|data|] == data;
    UnseenMembers(st.processedPages, data);
    forall i | 0 <= i < |data|
      ensures CursorSeen(r.processedPages, data[i].cursor)
    {
      if !CursorSeen(st.processedPages, data[i].cursor) {
        assert data[i] in sweep.newPages;
        var j :| 0 <= j < |sweep.newPages| && sweep.newPages[j] == data[i];
        assert r.processedPages[|st.processedPages| + j] == data[i];
      } else {
        var j :| 0 <= j < |st.processedPages| && st.processedPages[j].cursor == data[i].cursor;
        assert r.processedPages[j] == st.processedPages[j];
      }
    }
    if forall i :: 0 <= i < |data| ==> CursorSeen(st.processedPages, data[i].cursor) {
      SweepAllSeen(st, data, |data|, sessionEntityId, processNewEvents);
    }
  }

  /** The effect of `useProcessTree` that feeds pages into the tree: the
      processed pages grow by exactly the pages of `data` whose cursors were
      not processed before, in order; afterwards every cursor of `data` is
      processed; when nothing was new the state is unchanged; otherwise the
      map and orphans are those the unseen pages' calls produce, committed. */
  function SyncPages(st: TreeState, data: seq<ProcessEventsPage>, sessionEntityId: string, jumpToEntityId: Option<string>,
                     processNewEvents: ProcessNewEvents, autoExpand: AutoExpand): (r: TreeState)
    ensures |st.processedPages| <= |r.processedPages|
    ensures r.processedPages[..|st.processedPages|] == st.processedPages
    ensures r.processedPages[|st.processedPages|..] == Unseen(st.processedPages, data)
    ensures forall i :: 0 <= i < |data| ==> CursorSeen(r.processedPages, data[i].cursor)
    ensures (forall i :: 0 <= i < |data| ==> CursorSeen(st.processedPages, data[i].cursor)) ==> r == st
    ensures r == Commit(st, ApplyCalls(st, UnseenCalls(st.processedPages, data, |data|), sessionEntityId, processNewEvents),
                        jumpToEntityId, autoExpand)
  {
    CommitFacts(st, data, sessionEntityId, jumpToEntityId, processNewEvents, autoExpand);
    SweepIsApplyCalls(st, data, |data|, sessionEntityId, processNewEvents);
    Commit(st, SweepPrefix(st, data, |data|, sessionEntityId, processNewEvents), jumpToEntityId, autoExpand)
  }

  /** Re-running the effect on the same data processes nothing and leaves the
      state as the first run left it. */
  lemma SyncPagesIdempotent(st: TreeState, data: seq<ProcessEventsPage>, sessionEntityId: string, jumpToEntityId: Option<string>,
                            processNewEvents: ProcessNewEvents, autoExpand: AutoExpand)
    ensures
      var once := SyncPages(st, data, sessionEntityId, jumpToEntityId, processNewEvents, autoExpand);
      SyncPages(once, data, sessionEntityId, jumpToEntityId, processNewEvents, autoExpand) == once
  {
  }

  /** `SyncPages` is the state update applied to the sweep over all of
      `data`. */
  lemma SyncPagesCommits(st: TreeState, data: seq<ProcessEventsPage>, sessionEntityId: string, jumpToEntityId: Option<string>,
                         processNewEvents: ProcessNewEvents, autoExpand: AutoExpand)
    ensures SyncPages(st, data, sessionEntityId, jumpToEntityId, processNewEvents, autoExpand) ==
            Commit(st, SweepPrefix(st, data, |data|, sessionEntityId, processNewEvents), jumpToEntityId, autoExpand)
  {
  }

  /** The `forEach` over `data` as a loop: each page whose cursor was not
      processed before is handed to `processNewEvents` and pushed onto
      `newProcessedPages`. */
  method RunPageLoop(st: TreeState, data: seq<ProcessEventsPage>, sessionEntityId: string,
                     processNewEvents: ProcessNewEvents) returns (sweep: Sweep)
    ensures sweep == SweepPrefix(st, data, |data|, sessionEntityId, processNewEvents)
  {
    var updatedProcessMap := st.processMap;
    var newOrphans := st.orphans;
    var newProcessedPages: seq<ProcessEventsPage> := [];
    var i := 0;
    while i < |data|
      invariant 0 <= i <= |data|
      invariant SweepPrefix(st, data, i, sessionEntityId, processNewEvents) == Sweep(updatedProcessMap, newOrphans, newProcessedPages)
    {
      var page := data[i];
      SweepStep(st, data, i, sessionEntityId, processNewEvents);
      var processed := CursorSeen(st.processedPages, page.cursor);
      if !processed {
        var backwards := i < |st.processedPages|;
        var result := processNewEvents(updatedProcessMap, page.events, st.orphans, sessionEntityId, backwards);
        updatedProcessMap := result.0;
        newOrphans := result.1;
        newProcessedPages := newProcessedPages + [page];
      }
      i := i + 1;
    }
    sweep := Sweep(updatedProcessMap, newOrphans, newProcessedPages);
  }

  /** The whole effect: the loop, then the state update when anything was
      processed; it computes exactly `SyncPages`. */
  method RunPageEffect(st: TreeState, data: seq<ProcessEventsPage>, sessionEntityId: string, jumpToEntityId: Option<string>,
                       processNewEvents: ProcessNewEvents, autoExpand: AutoExpand) returns (r: TreeState)
    ensures r == SyncPages(st, data, sessionEntityId, jumpToEntityId, processNewEvents, autoExpand)
  {
    var sweep := RunPageLoop(st, data, sessionEntityId, processNewEvents);
    SyncPagesCommits(st, data, sessionEntityId, jumpToEntityId, processNewEvents, autoExpand);
    if |sweep.newPages| > 0 {
      var stored := StoredCopy(sweep.processMap, autoExpand(sweep.processMap, jumpToEntityId));
      r := TreeState(stored, st.processedPages + sweep.newPages, sweep.orphans);
    } else {
      r := st;
    }
  }
}

=== FILE: process_events.dfy ===
/** The process events a session view receives, and the scans over an event
    log that a process node uses to answer questions about itself
    (x-pack/plugins/session_view/public/components/process_tree/hooks.ts). */
module ProcessEvents {
  import opened Wrappers

  /** The `event.action` values the process tree looks for. */
  datatype EventAction = Fork | Exec | End | Output

  /** A reference to another process as carried by an event
      (`process.parent`, `process.group_leader`, ...): its pid and entity id,
      either of which may be absent. */
  datatype ProcessRef = ProcessRef(pid: Option<int>, entityId: Option<string>)

  /** The `process` part of an event. `hasTty` is the truthiness of
      `process.tty`. */
  datatype ProcessFields = ProcessFields(
    pid: Option<int>,
    hasTty: bool,
    parent: Option<ProcessRef>,
    groupLeader: Option<ProcessRef>,
    sessionLeader: Option<ProcessRef>,
    entryLeader: Option<ProcessRef>)

  /** One process event. `eventId` is `event.id`, `action` is `event.action`
      (absent when the event carries none), `timestamp` is `@timestamp` and
      `alertUuid` is `kibana.alert.uuid` on alert events. */
  datatype ProcessEvent = ProcessEvent(
    timestamp: Option<string>,
    eventId: Option<string>,
    action: Option<EventAction>,
    process: Option<ProcessFields>,
    alertUuid: Option<string>)

  /** Fork, exec and end events describe the lifecycle of a process. */
  predicate IsLifecycle(e: ProcessEvent) {
    e.action == Some(Fork) || e.action == Some(Exec) || e.action == Some(End)
  }

  /** `i` is the position of the first event of `events` with action `a`. */
  ghost predicate FirstWithAction(events: seq<ProcessEvent>, a: EventAction, i: int) {
    && 0 <= i < |events|
    && events[i].action == Some(a)
    && forall j :: 0 <= j < i ==> events[j].action != Some(a)
  }

  /** `i` is the position of the last lifecycle event of `events`. */
  ghost predicate LastLifecycleAt(events: seq<ProcessEvent>, i: int) {
    && 0 <= i < |events|
    && IsLifecycle(events[i])
    && forall j :: i < j < |events| ==> !IsLifecycle(events[j])
  }

  /** `findEventByAction`: the first event of the log whose action is `a`,
      if any. */
  function FindEventByAction(events: seq<ProcessEvent>, a: EventAction): (r: Option<ProcessEvent>)
    ensures r.None? <==> forall i :: 0 <= i < |events| ==> events[i].action != Some(a)
    ensures r.Some? ==> exists i :: FirstWithAction(events, a, i) && events[i] == r.value
  {
    if |events| == 0 then None
    else if events[0].action == Some(a) then
      assert FirstWithAction(events, a, 0);
      Some(events[0])
    else
      var r := FindEventByAction(events[1..], a);
      if r.Some? then
        assert forall i | FirstWithAction(events[1..], a, i) ::
          FirstWithAction(events, a, i + 1) && events[i + 1] == events[1..][i];
        r
      else
        r
  }

  /** Whether some event of the log carries the event id `id` (the duplicate
      check of `addEvent`). Absent ids compare equal, as `undefined` does with
      itself under strict equality. */
  predicate HasEventId(events: seq<ProcessEvent>, id: Option<string>)
  {
    exists i :: 0 <= i < |events| && events[i].eventId == id
  }

  /** The fork, exec and end events of a log, in log order (the `filter`
      step of `getDetailsMemo`). */
  function LifecycleEvents(events: seq<ProcessEvent>): (r: seq<ProcessEvent>)
    ensures |r| <= |events|
    ensures forall k :: 0 <= k < |r| ==> IsLifecycle(r[k])
  {
    if |events| == 0 then []
    else
      var init := events[..|events| - 1];
      var last := events[|events| - 1];
      var rest := LifecycleEvents(init);
      assert events == init + [last];
      if IsLifecycle(last) then rest + [last] else rest
  }

  /** The filter keeps exactly the lifecycle events of the log. */
  lemma {:induction false} LifecycleEventsMembers(events: seq<ProcessEvent>)
    ensures forall e :: e in LifecycleEvents(events) <==> e in events && IsLifecycle(e)
  {
    if |events| > 0 {
      var init := events[..|events| - 1];
      var last := events[|events| - 1];
      LifecycleEventsMembers(init);
      assert events == init + [last];
      assert LifecycleEvents(events) == if IsLifecycle(last) then LifecycleEvents(init) + [last] else LifecycleEvents(init);
    }
  }

  /** The filter works event by event: a single event is kept alone exactly
      when it is a lifecycle event, and the filter of two logs joined is the
      two filters joined. Together these fix the order and the multiplicity
      of what is kept. */
  lemma {:induction false} LifecycleEventsAppend(a: seq<ProcessEvent>, b: seq<ProcessEvent>)
    ensures LifecycleEvents(a + b) == LifecycleEvents(a) + LifecycleEvents(b)
    ensures |b| == 1 ==> LifecycleEvents(b) == if IsLifecycle(b[0]) then b else []
  {
    if |b| == 0 {
      assert a + b == a;
    } else {
      var init := b[..|b| - 1];
      var last := b[|b| - 1];
      var ab := a + b;
      assert ab[..|ab| - 1] == a + init;
      assert ab[|ab| - 1] == last;
      LifecycleEventsAppend(a, init);
      LifecycleEventsUnfold(ab);
      LifecycleEventsUnfold(b);
      if |b| == 1 {
        assert init == [];
      }
    }
  }

  /** One step of the filter: the last event is kept after the filter of the
      rest exactly when it is a lifecycle event. */
  lemma LifecycleEventsUnfold(events: seq<ProcessEvent>)
    requires |events| > 0
    ensures LifecycleEvents(events) ==
      var rest := LifecycleEvents(events[..|events| - 1]);
      if IsLifecycle(events[|events| - 1]) then rest + [events[|events| - 1]] else rest
  {
  }

  /** Each event occurs in the filtered log as often as in the log when it
      is a lifecycle event, and not at all otherwise. */
  lemma {:induction false} LifecycleEventsCount(events: seq<ProcessEvent>, e: ProcessEvent)
    ensures multiset(LifecycleEvents(events))[e] == if IsLifecycle(e) then multiset(events)[e] else 0
  {
    if |events| > 0 {
      var init := events[..|events| - 1];
      var last := events[|events| - 1];
      LifecycleEventsCount(init, e);
      assert events == init + [last];
      assert LifecycleEvents(events) == if IsLifecycle(last) then LifecycleEvents(init) + [last] else LifecycleEvents(init);
    }
  }

  /** `getDetailsMemo`: the most recent fork, exec or end event in log
      order, or `None` for the empty record `{}` returned when there is none. */
  function GetDetails(events: seq<ProcessEvent>): (r: Option<ProcessEvent>)
    ensures r.None? <==> forall i :: 0 <= i < |events| ==> !IsLifecycle(events[i])
    ensures r.Some? ==> IsLifecycle(r.value)
    ensures r.Some? ==> exists i :: LastLifecycleAt(events, i) && events[i] == r.value
  {
    var filtered := LifecycleEvents(events);
    LastOfLifecycleEvents(events);
    if |filtered| == 0 then None else Some(filtered[|filtered| - 1])
  }

  /** The last element of the filtered log is the last lifecycle event of
      the full log, and the filter is empty iff the log has no lifecycle
      event. */
  lemma LastOfLifecycleEvents(events: seq<ProcessEvent>)
    ensures |LifecycleEvents(events)| == 0 <==> forall i :: 0 <= i < |events| ==> !IsLifecycle(events[i])
    ensures |LifecycleEvents(events)| > 0 ==>
      exists i :: LastLifecycleAt(events, i) && events[i] == LifecycleEvents(events)[|LifecycleEvents(events)| - 1]
  {
    var filtered := LifecycleEvents(events);
    LifecycleEventsMembers(events);
    if |filtered| > 0 {
      assert filtered[0] in filtered;
    } else {
      forall i | 0 <= i < |events|
        ensures !IsLifecycle(events[i])
      {
        assert events[i] in events;
      }
    }
    LastOfFiltered(events);
  }

  /** The induction behind `LastOfLifecycleEvents`: the last kept event sits
      at the last lifecycle position. */
  lemma {:induction false} LastOfFiltered(events: seq<ProcessEvent>)
    ensures |LifecycleEvents(events)| > 0 ==>
      exists i :: LastLifecycleAt(events, i) && events[i] == LifecycleEvents(events)[|LifecycleEvents(events)| - 1]
  {
    if |events| > 0 {
      var init := events[..|events| - 1];
      var last := events[|events| - 1];
      var rest := LifecycleEvents(init);
      assert events == init + [last];
      assert LifecycleEvents(events) == if IsLifecycle(last) then rest + [last] else rest;
      LastOfFiltered(init);
      if IsLifecycle(last) {
        assert LastLifecycleAt(events, |events| - 1);
      } else if |rest| > 0 {
        var i :| LastLifecycleAt(init, i) && init[i] == rest[|rest| - 1];
        assert LastLifecycleAt(events, i);
      }
    }
  }

  /** Appending to a log moves its details only when the appended event is a
      lifecycle event, in which case it becomes the details. */
  lemma GetDetailsAppend(events: seq<ProcessEvent>, e: ProcessEvent)
    ensures GetDetails(events + [e]) == if IsLifecycle(e) then Some(e) else GetDetails(events)
  {
  }

  /** An end event stays the details as long as only non-lifecycle events
      (output, alerts, informational events) are appended after it. */
  lemma EndStaysDetails(events: seq<ProcessEvent>, i: int)
    requires 0 <= i < |events| && events[i].action == Some(End)
    requires forall j :: i < j < |events| ==> !IsLifecycle(events[j])
    ensures GetDetails(events) == Some(events[i])
  {
  }

  /** Details are decided by log order, not by action: an exec appended after
      an end event replaces it as the details. */
  lemma ExecAfterEndIsDetails()
    ensures
      var endEvent := ProcessEvent(None, Some("a"), Some(End), None, None);
      var execEvent := ProcessEvent(None, Some("b"), Some(Exec), None, None);
      GetDetails([endEvent, execEvent]) == Some(execEvent)
  {
  }
}

=== FILE: process_node.dfy ===
/** A node of the process tree (`ProcessImpl` in
    x-pack/plugins/session_view/public/components/process_tree/hooks.ts):
    its logs, and the questions it answers from them. Children, orphans and
    the parent are held as entity ids into the process map (module
    ProcessTree). */
module ProcessNode {
  import opened Wrappers
  import opened ProcessEvents

  datatype Node = Node(
    id: string,
    events: seq<ProcessEvent>,
    alerts: seq<ProcessEvent>,
    children: seq<string>,
    orphans: seq<string>,
    parent: Option<string>,
    autoExpand: bool,
    searchMatched: Option<string>)

  /** No two events of a log share an event id (absent ids count as one id). */
  ghost predicate DistinctEventIds(events: seq<ProcessEvent>) {
    forall i, j :: 0 <= i < j < |events| ==> events[i].eventId != events[j].eventId
  }

  /** `new ProcessImpl(id)`: a node with empty logs, no relatives and no
      search state. */
  function NewNode(id: string): (n: Node)
    ensures n.id == id && n.parent.None?
    ensures n.events == [] && n.alerts == [] && !n.autoExpand && n.searchMatched.None?
    ensures |n.children| == 0 && |n.orphans| == 0
    ensures !HasAlerts(n) && !HasExec(n) && !HasExited(n) && !HasOutput(n)
    ensures IsVerbose(n) && !IsUserEntered(n)
  {
    Node(id, [], [], [], [], None, false, None)
  }

  /** `addEvent`: appends `e` unless an event with the same event id is
      already logged. */
  function AddEvent(n: Node, e: ProcessEvent): (r: Node)
    ensures HasEventId(n.events, e.eventId) ==> r == n
    ensures !HasEventId(n.events, e.eventId) ==> r == n.(events := n.events + [e])
    ensures HasEventId(r.events, e.eventId)
    ensures DistinctEventIds(n.events) ==> DistinctEventIds(r.events)
  {
    if FindEventById(n.events, e.eventId).Some? then n
    else
      var events := n.events + [e];
      assert events[|n.events|] == e;
      n.(events := events)
  }

  /** The linear `find` scan of `addEvent`. */
  function FindEventById(events: seq<ProcessEvent>, id: Option<string>): (r: Option<ProcessEvent>)
    ensures r.Some? <==> HasEventId(events, id)
    ensures r.Some? ==> r.value in events && r.value.eventId == id
  {
    if |events| == 0 then None
    else if events[0].eventId == id then Some(events[0])
    else
      var r := FindEventById(events[1..], id);
      assert forall i :: 0 < i < |events| ==> events[i] == events[1..][i - 1];
      r
  }

  /** Adding the same event twice is the same as adding it once. */
  lemma AddEventIdempotent(n: Node, e: ProcessEvent)
    ensures AddEvent(AddEvent(n, e), e) == AddEvent(n, e)
  {
  }

  /** `addAlert`: unconditional append to the alert log. */
  function AddAlert(n: Node, a: ProcessEvent): (r: Node)
    ensures r.alerts == n.alerts + [a]
    ensures r == n.(alerts := r.alerts)
    ensures HasAlerts(r)
  {
    n.(alerts := n.alerts + [a])
  }

  /** `clearSearch`: forgets the search mark and nothing else. */
  function ClearSearch(n: Node): (r: Node)
    ensures r.searchMatched.None?
    ensures r.(searchMatched := n.searchMatched) == n
  {
    n.(searchMatched := None)
  }

  /** `hasAlerts`: the alert log is non-empty. A node without alerts matches
      no uuid under `hasAlert`. */
  function HasAlerts(n: Node): (r: bool)
    ensures r <==> exists a :: a in n.alerts
    ensures !r ==> forall u :: !HasAlert(n, u)
  {
    if |n.alerts| > 0 then
      assert n.alerts[0] in n.alerts;
      true
    else false
  }

  /** `hasAlert(alertUuid)`: a falsy uuid (absent or empty) matches nothing;
      otherwise some alert must carry exactly that uuid. */
  function HasAlert(n: Node, alertUuid: Option<string>): (r: bool)
    ensures alertUuid.None? ==> !r
    ensures alertUuid == Some("") ==> !r
    ensures alertUuid.Some? && alertUuid.value != "" ==>
      (r <==> exists i :: 0 <= i < |n.alerts| && n.alerts[i].alertUuid == alertUuid)
  {
    match alertUuid
    case None => false
    case Some(u) => u != "" && AlertWithUuid(n.alerts, u)
  }

  /** The `find` scan of `hasAlert`. */
  function AlertWithUuid(alerts: seq<ProcessEvent>, u: string): (r: bool)
    ensures r <==> exists i :: 0 <= i < |alerts| && alerts[i].alertUuid == Some(u)
  {
    if |alerts| == 0 then false
    else
      assert forall i :: 0 < i < |alerts| ==> alerts[i] == alerts[1..][i - 1];
      alerts[0].alertUuid == Some(u) || AlertWithUuid(alerts[1..], u)
  }

  /** After `addAlert(a)`, a uuid is found iff it was found before or `a`
      carries it. */
  lemma {:induction false} HasAlertAfterAddAlert(n: Node, a: ProcessEvent, u: string)
    requires u != ""
    ensures HasAlert(AddAlert(n, a), Some(u)) <==> HasAlert(n, Some(u)) || a.alertUuid == Some(u)
  {
    var r := AddAlert(n, a);
    assert r.alerts[|n.alerts|] == a;
    if HasAlert(n, Some(u)) {
      var i :| 0 <= i < |n.alerts| && n.alerts[i].alertUuid == Some(u);
      assert r.alerts[i] == n.alerts[i];
    }
    if HasAlert(r, Some(u)) && a.alertUuid != Some(u) {
      var i :| 0 <= i < |r.alerts| && r.alerts[i].alertUuid == Some(u);
      assert i < |n.alerts| && n.alerts[i] == r.alerts[i];
    }
  }

  /** `hasOutput`: some event is an output event. */
  function HasOutput(n: Node): (r: bool)
    ensures r <==> exists i :: 0 <= i < |n.events| && n.events[i].action == Some(Output)
  {
    FindEventByAction(n.events, Output).Some?
  }

  /** `hasExec`: some event is an exec event. */
  function HasExec(n: Node): (r: bool)
    ensures r <==> exists i :: 0 <= i < |n.events| && n.events[i].action == Some(Exec)
  {
    FindEventByAction(n.events, Exec).Some?
  }

  /** `hasExited`: some event is an end event. */
  function HasExited(n: Node): (r: bool)
    ensures r <==> exists i :: 0 <= i < |n.events| && n.events[i].action == Some(End)
  {
    FindEventByAction(n.events, End).Some?
  }

  /** `getEndTime`: the timestamp of the FIRST end event, or `''` when there
      is no end event or its timestamp is absent. */
  function GetEndTime(n: Node): (r: string)
    ensures !HasExited(n) ==> r == ""
    ensures HasExited(n) ==>
      exists i :: (FirstWithAction(n.events, End, i) &&
                   r == (match n.events[i].timestamp case Some(t) => t case None => ""))
  {
    match FindEventByAction(n.events, End)
    case None => ""
    case Some(e) => match e.timestamp case Some(t) => t case None => ""
  }

  /** The `process` record of the node's details (`getDetails().process`);
      absent when there are no details. */
  function DetailsProcess(n: Node): Option<ProcessFields> {
    match GetDetails(n.events)
    case None => None
    case Some(e) => e.process
  }

  /** The `isVerbose` rule applied to a process record: the node is not the
      entry leader, and the group leader or the session leader is missing or
      both carry the same pid. A missing record reads as `{}` and is verbose. */
  function VerboseRule(id: string, p: Option<ProcessFields>): (r: bool)
    ensures p.None? ==> r
    ensures p.Some? && p.value.entryLeader.Some? && p.value.entryLeader.value.entityId == Some(id) ==> !r
    ensures (&& p.Some? && p.value.groupLeader.Some? && p.value.sessionLeader.Some?
             && p.value.groupLeader.value.pid != p.value.sessionLeader.value.pid) ==> !r
    ensures (&& p.Some? && (p.value.entryLeader.None? || p.value.entryLeader.value.entityId != Some(id))
             && p.value.groupLeader.None?) ==> r
    ensures (&& p.Some? && (p.value.entryLeader.None? || p.value.entryLeader.value.entityId != Some(id))
             && (p.value.sessionLeader.None? ||
                 (p.value.groupLeader.Some? && p.value.groupLeader.value.pid == p.value.sessionLeader.value.pid))) ==> r
  {
    var entryLeaderId := if p.Some? && p.value.entryLeader.Some? then p.value.entryLeader.value.entityId else None;
    var groupLeader := if p.Some? then p.value.groupLeader else None;
    var sessionLeader := if p.Some? then p.value.sessionLeader else None;
    && Some(id) != entryLeaderId
    && (groupLeader.None? || sessionLeader.None? || groupLeader.value.pid == sessionLeader.value.pid)
  }

  /** `isVerbose`: shell noise, decided on the node's details. In terms of
      the log: a node without lifecycle events is verbose; otherwise the rule
      is read off its last lifecycle event. */
  function IsVerbose(n: Node): (r: bool)
    ensures (forall i :: 0 <= i < |n.events| ==> !IsLifecycle(n.events[i])) ==> r
    ensures forall i | LastLifecycleAt(n.events, i) :: r <==> VerboseRule(n.id, n.events[i].process)
  {
    VerboseRule(n.id, DetailsProcess(n))
  }

  /** The `isUserEntered` rule applied to a process record: an interactive
      session, a parent with the session leader's pid, and the process is its
      own group leader. A missing record reads as `{}` and fails it. */
  function UserEnteredRule(p: Option<ProcessFields>): (r: bool)
    ensures p.None? ==> !r
    ensures p.Some? && !p.value.hasTty ==> !r
    ensures r ==> p.Some? && p.value.groupLeader.Some? && p.value.pid == p.value.groupLeader.value.pid
    ensures r ==> (&& p.Some? && p.value.parent.Some? && p.value.sessionLeader.Some?
                   && p.value.parent.value.pid == p.value.sessionLeader.value.pid)
    ensures (&& p.Some? && p.value.hasTty
             && p.value.parent.Some? && p.value.sessionLeader.Some?
             && p.value.parent.value.pid == p.value.sessionLeader.value.pid
             && p.value.groupLeader.Some? && p.value.pid == p.value.groupLeader.value.pid) ==> r
  {
    && p.Some?
    && p.value.hasTty
    && p.value.parent.Some? && p.value.sessionLeader.Some?
    && p.value.parent.value.pid == p.value.sessionLeader.value.pid
    && p.value.groupLeader.Some? && p.value.pid == p.value.groupLeader.value.pid
  }

  /** `isUserEntered`: heuristic for processes typed in by a person. In terms
      of the log: a node without lifecycle events is never user entered;
      otherwise the rule is read off its last lifecycle event. */
  function IsUserEntered(n: Node): (r: bool)
    ensures (forall i :: 0 <= i < |n.events| ==> !IsLifecycle(n.events[i])) ==> !r
    ensures forall i | LastLifecycleAt(n.events, i) :: r <==> UserEnteredRule(n.events[i].process)
  {
    UserEnteredRule(DetailsProcess(n))
  }

  /** The entry leader of a session is never verbose. */
  lemma EntryLeaderNotVerbose(n: Node, e: ProcessEvent)
    requires GetDetails(n.events) == Some(e)
    requires e.process.Some? && e.process.value.entryLeader.Some?
    requires e.process.value.entryLeader.value.entityId == Some(n.id)
    ensures !IsVerbose(n)
  {
  }

  /** Logging a non-lifecycle event (output, informational) changes neither
      classification heuristic; logging a lifecycle event re-decides both on
      that event. */
  lemma HeuristicsAfterAddEvent(n: Node, e: ProcessEvent)
    requires !HasEventId(n.events, e.eventId)
    ensures !IsLifecycle(e) ==> (IsVerbose(AddEvent(n, e)) <==> IsVerbose(n))
    ensures !IsLifecycle(e) ==> (IsUserEntered(AddEvent(n, e)) <==> IsUserEntered(n))
    ensures IsLifecycle(e) ==> (IsVerbose(AddEvent(n, e)) <==> VerboseRule(n.id, e.process))
    ensures IsLifecycle(e) ==> (IsUserEntered(AddEvent(n, e)) <==> UserEnteredRule(e.process))
  {
  }
}

=== FILE: process_tree.dfy ===
/** The process map as an arena of nodes keyed by entity id, the ancestor
    walk `isDescendantOf` and the view projection `getChildren` of
    x-pack/plugins/session_view/public/components/process_tree/hooks.ts.
    A JavaScript object reference becomes the entity id of the node it
    points to, so reference identity (`parent === process`) is id equality. */
module ProcessTree {
  import opened Wrappers
  import opened ProcessEvents
  import opened ProcessNode

  /** The process map: entity id to node. */
  type Tree = map<string, Node>

  /** `rank` witnesses that parent links are acyclic: it ranks every node of
      the map and strictly decreases from a node to its parent. */
  ghost predicate Ranked(t: Tree, rank: map<string, nat>) {
    forall id | id in t ::
      && id in rank
      && (t[id].parent.Some? ==>
            t[id].parent.value in t && t[id].parent.value in rank && rank[t[id].parent.value] < rank[id])
  }

  /** The id reached from `id` by following `k` parent links, if the chain is
      that long. */
  ghost function NthParent(t: Tree, id: string, k: nat): Option<string>
    decreases k
  {
    if k == 0 then Some(id)
    else if id !in t || t[id].parent.None? then None
    else NthParent(t, t[id].parent.value, k - 1)
  }

  /** `isDescendantOf`: walks the parent chain of `id`, starting at its
      parent, and answers whether `target` is met before the chain ends. */
  function IsDescendantOf(t: Tree, ghost rank: map<string, nat>, id: string, target: string): (r: bool)
    requires Ranked(t, rank) && id in t
    ensures t[id].parent.None? ==> !r
    ensures t[id].parent == Some(target) ==> r
    ensures r ==> target in t && rank[target] < rank[id]
    decreases rank[id]
  {
    match t[id].parent
    case None => false
    case Some(p) => p == target || IsDescendantOf(t, rank, p, target)
  }

  /** `isDescendantOf` answers exactly whether `target` lies on the strict
      parent chain of `id`. */
  lemma {:induction false} IsDescendantOfChain(t: Tree, rank: map<string, nat>, id: string, target: string)
    requires Ranked(t, rank) && id in t
    ensures IsDescendantOf(t, rank, id, target) <==> exists k :: 1 <= k && NthParent(t, id, k) == Some(target)
    decreases rank[id]
  {
    match t[id].parent
    case None =>
      forall k | 1 <= k
        ensures NthParent(t, id, k) == None
      {
      }
    case Some(p) =>
      IsDescendantOfChain(t, rank, p, target);
      if p == target {
        assert NthParent(t, id, 1) == Some(target);
      } else if IsDescendantOf(t, rank, p, target) {
        var k :| 1 <= k && NthParent(t, p, k) == Some(target);
        assert NthParent(t, id, k + 1) == NthParent(t, p, k);
        assert IsDescendantOf(t, rank, id, target);
        assert 1 <= k + 1 && NthParent(t, id, k + 1) == Some(target);
      } else {
        forall k | 1 <= k
          ensures NthParent(t, id, k) != Some(target)
        {
          if k > 1 {
            assert NthParent(t, id, k) == NthParent(t, p, k - 1);
          }
        }
      }
  }

  /** With acyclic parents no node is its own descendant. */
  lemma NotDescendantOfItself(t: Tree, rank: map<string, nat>, id: string)
    requires Ranked(t, rank) && id in t
    ensures !IsDescendantOf(t, rank, id, id)
  {
  }

  /** Descent is transitive. */
  lemma {:induction false} DescendantTransitive(t: Tree, rank: map<string, nat>, a: string, b: string, c: string)
    requires Ranked(t, rank) && a in t && b in t
    requires IsDescendantOf(t, rank, a, b) && IsDescendantOf(t, rank, b, c)
    ensures IsDescendantOf(t, rank, a, c)
    decreases rank[a]
  {
    var p := t[a].parent.value;
    if p != b {
      DescendantTransitive(t, rank, p, b, c);
    }
  }

  /** The answer does not depend on which acyclicity witness is used. */
  lemma {:induction false} IsDescendantOfRankIndependent(t: Tree, rank1: map<string, nat>, rank2: map<string, nat>, id: string, target: string)
    requires Ranked(t, rank1) && Ranked(t, rank2) && id in t
    ensures IsDescendantOf(t, rank1, id, target) == IsDescendantOf(t, rank2, id, target)
    decreases rank1[id]
  {
    if t[id].parent.Some? {
      IsDescendantOfRankIndependent(t, rank1, rank2, t[id].parent.value, target);
    }
  }

  /** Every node is stored under its own entity id, so a key stands for the
      process object it indexes. */
  ghost predicate WellFormed(t: Tree) {
    forall k | k in t :: t[k].id == k
  }

  /** Every child and orphan of node `id` is a node of the map. */
  ghost predicate RelativesKnown(t: Tree, id: string)
    requires id in t
  {
    forall c | c in t[id].children + t[id].orphans :: c in t
  }

  /** The non-verbose filter of `getChildren`: a child is shown iff it has
      events and it auto-expands, carries alerts, or is not verbose. */
  predicate Shown(c: Node) {
    |c.events| > 0 && (c.autoExpand || HasAlerts(c) || !IsVerbose(c))
  }

  /** `children.filter(...)` with the non-verbose predicate. */
  function FilterShown(t: Tree, ids: seq<string>): (r: seq<string>)
    requires forall c | c in ids :: c in t
    ensures forall c :: multiset(r)[c] == if c in ids && Shown(t[c]) then multiset(ids)[c] else 0
  {
    if |ids| == 0 then []
    else
      var rest := FilterShown(t, ids[1..]);
      assert multiset(ids) == multiset{ids[0]} + multiset(ids[1..]) by {
        assert ids == [ids[0]] + ids[1..];
      }
      if Shown(t[ids[0]]) then
        assert multiset([ids[0]] + rest) == multiset{ids[0]} + multiset(rest);
        [ids[0]] + rest
      else rest
  }

  /** `Array.prototype.sort` under the comparator `cmp` (`sortProcesses`),
      as a stable insertion sort: `x` goes before the first element it does
      not compare greater than. */
  function Insert(t: Tree, x: string, s: seq<string>, cmp: (Node, Node) -> int): (r: seq<string>)
    requires x in t && forall c | c in s :: c in t
    ensures multiset(r) == multiset(s) + multiset{x}
    ensures forall c | c in r :: c in t
  {
    if |s| == 0 then [x]
    else if cmp(t[x], t[s[0]]) <= 0 then [x] + s
    else
      assert s == [s[0]] + s[1..];
      [s[0]] + Insert(t, x, s[1..], cmp)
  }

  function Sort(t: Tree, s: seq<string>, cmp: (Node, Node) -> int): (r: seq<string>)
    requires forall c | c in s :: c in t
    ensures multiset(r) == multiset(s)
    ensures forall c | c in r :: c in t
  {
    if |s| == 0 then []
    else
      assert s == [s[0]] + s[1..];
      Insert(t, s[0], Sort(t, s[1..], cmp), cmp)
  }

  /** `getChildren(verboseMode)`: children followed by orphans, filtered when
      verbose mode is off, then sorted. */
  function GetChildren(t: Tree, id: string, verboseMode: bool, cmp: (Node, Node) -> int): (r: seq<string>)
    requires WellFormed(t) && id in t && RelativesKnown(t, id)
    ensures verboseMode ==> multiset(r) == multiset(t[id].children + t[id].orphans)
    ensures !verboseMode ==>
      forall c :: (multiset(r)[c] ==
        if c in t[id].children + t[id].orphans && Shown(t[c]) then multiset(t[id].children + t[id].orphans)[c] else 0)
    ensures forall c | c in r :: c in t
  {
    var all := t[id].children + t[id].orphans;
    var picked := if verboseMode then all else FilterShown(t, all);
    Sort(t, picked, cmp)
  }

  /** A child with alerts but no events is dropped from the non-verbose view;
      a child with events and alerts is always kept. */
  lemma AlertsDoNotRescueEmptyNodes(t: Tree, id: string, cmp: (Node, Node) -> int, c: string)
    requires WellFormed(t) && id in t && RelativesKnown(t, id)
    requires c in t[id].children + t[id].orphans
    ensures |t[c].events| == 0 ==> c !in GetChildren(t, id, false, cmp)
    ensures |t[c].events| > 0 && HasAlerts(t[c]) ==> c in GetChildren(t, id, false, cmp)
  {
  }

  /** `cmp` orders nodes totally: any two compare one way or the other, and
      "not greater" is transitive. */
  ghost predicate TotalPreorder(cmp: (Node, Node) -> int) {
    && (forall a, b :: cmp(a, b) <= 0 || cmp(b, a) <= 0)
    && (forall a, b, c :: cmp(a, b) <= 0 && cmp(b, c) <= 0 ==> cmp(a, c) <= 0)
  }

  ghost predicate SortedBy(t: Tree, s: seq<string>, cmp: (Node, Node) -> int)
    requires forall c | c in s :: c in t
  {
    forall i, j :: 0 <= i < j < |s| ==> cmp(t[s[i]], t[s[j]]) <= 0
  }

  /** Putting an element that compares below everything in front of a sorted
      list keeps it sorted. */
  lemma ConsSorted(t: Tree, h: string, rest: seq<string>, cmp: (Node, Node) -> int)
    requires h in t && forall c | c in rest :: c in t
    requires SortedBy(t, rest, cmp)
    requires forall c | c in rest :: cmp(t[h], t[c]) <= 0
    ensures SortedBy(t, [h] + rest, cmp)
  {
  }

  /** Under a total preorder, insertion keeps a sorted list sorted. */
  lemma {:induction false} InsertSorted(t: Tree, x: string, s: seq<string>, cmp: (Node, Node) -> int)
    requires x in t && forall c | c in s :: c in t
    requires TotalPreorder(cmp) && SortedBy(t, s, cmp)
    ensures SortedBy(t, Insert(t, x, s, cmp), cmp)
    decreases |s|, 1
  {
    if |s| == 0 {
    } else if cmp(t[x], t[s[0]]) <= 0 {
      forall c | c in s
        ensures cmp(t[x], t[c]) <= 0
      {
        var k :| 0 <= k < |s| && s[k] == c;
        if k > 0 {
          assert cmp(t[s[0]], t[s[k]]) <= 0;
        }
      }
      ConsSorted(t, x, s, cmp);
    } else {
      InsertSortedPastHead(t, x, s, cmp);
    }
  }

  /** The third case of `InsertSorted`: `x` compares greater than the head,
      so it is inserted into the tail and the head stays in front. */
  lemma {:induction false} InsertSortedPastHead(t: Tree, x: string, s: seq<string>, cmp: (Node, Node) -> int)
    requires x in t && forall c | c in s :: c in t
    requires TotalPreorder(cmp) && SortedBy(t, s, cmp)
    requires |s| > 0 && cmp(t[x], t[s[0]]) > 0
    ensures SortedBy(t, Insert(t, x, s, cmp), cmp)
    decreases |s|, 0
  {
    var tail := s[1..];
    SortedTail(t, s, cmp);
    InsertSorted(t, x, tail, cmp);
    var rest := Insert(t, x, tail, cmp);
    assert cmp(t[s[0]], t[x]) <= 0;
    HeadBelowInsert(t, s, x, rest, cmp);
    ConsSorted(t, s[0], rest, cmp);
  }

  /** The tail of a sorted list is sorted. */
  lemma SortedTail(t: Tree, s: seq<string>, cmp: (Node, Node) -> int)
    requires |s| > 0 && forall c | c in s :: c in t
    requires SortedBy(t, s, cmp)
    ensures SortedBy(t, s[1..], cmp)
  {
    var tail := s[1..];
    forall i, j | 0 <= i < j < |tail|
      ensures cmp(t[tail[i]], t[tail[j]]) <= 0
    {
      assert tail[i] == s[i + 1] && tail[j] == s[j + 1];
    }
  }

  /** The head of a sorted list compares below every element of the tail
      with one more element `x` that the head compares below too. */
  lemma HeadBelowInsert(t: Tree, s: seq<string>, x: string, rest: seq<string>, cmp: (Node, Node) -> int)
    requires |s| > 0 && x in t && forall c | c in s :: c in t
    requires SortedBy(t, s, cmp) && cmp(t[s[0]], t[x]) <= 0
    requires multiset(rest) == multiset(s[1..]) + multiset{x} && forall c | c in rest :: c in t
    ensures forall c | c in rest :: cmp(t[s[0]], t[c]) <= 0
  {
    var tail := s[1..];
    forall c | c in rest
      ensures cmp(t[s[0]], t[c]) <= 0
    {
      assert c in multiset(rest);
      if c != x {
        assert c in tail;
        var k :| 0 <= k < |tail| && tail[k] == c;
        assert s[k + 1] == c;
      }
    }
  }

  /** Under a total preorder, sorting yields a list in comparator order. */
  lemma {:induction false} SortSorted(t: Tree, s: seq<string>, cmp: (Node, Node) -> int)
    requires forall c | c in s :: c in t
    requires TotalPreorder(cmp)
    ensures SortedBy(t, Sort(t, s, cmp), cmp)
  {
    if |s| > 0 {
      SortSorted(t, s[1..], cmp);
      InsertSorted(t, s[0], Sort(t, s[1..], cmp), cmp);
    }
  }

  /** Under a total preorder the children come out in comparator order. */
  lemma GetChildrenSorted(t: Tree, id: string, verboseMode: bool, cmp: (Node, Node) -> int)
    requires WellFormed(t) && id in t && RelativesKnown(t, id)
    requires TotalPreorder(cmp)
    ensures SortedBy(t, GetChildren(t, id, verboseMode, cmp), cmp)
  {
    var all := t[id].children + t[id].orphans;
    SortSorted(t, if verboseMode then all else FilterShown(t, all), cmp);
  }
}

=== FILE: servicenow_utils.dfy ===
/** Request helpers of the ServiceNow connector
    (x-pack/plugins/actions/server/builtin_action_types/servicenow/utils.ts):
    renaming incident fields for the new API, formatting an error response,
    and validating a requested sub-action. */
module ServiceNowUtils {
  import opened Wrappers

  /** `prepareIncident`: the old API takes the incident as it is; the new API
      takes every field under the name `fieldPrefix + key` (`FIELD_PREFIX`
      is a configuration constant, a parameter here). */
  function PrepareIncident<V>(useOldApi: bool, incident: map<string, V>, fieldPrefix: string): (r: map<string, V>)
    ensures useOldApi ==> r == incident
    ensures !useOldApi ==> r.Keys == set k | k in incident :: fieldPrefix + k
    ensures !useOldApi ==> forall k | k in incident :: fieldPrefix + k in r && r[fieldPrefix + k] == incident[k]
    ensures |r| == |incident|
  {
    if useOldApi then incident
    else
      PrefixInjective(fieldPrefix);
      var r := map k | k in incident :: fieldPrefix + k := incident[k];
      PrefixPreservesCount(incident.Keys, fieldPrefix);
      assert r.Keys == set k | k in incident.Keys :: fieldPrefix + k;
      r
  }

  /** Prefixing is injective, so the prefixed key set is as large as the
      original one. */
  lemma {:induction false} PrefixPreservesCount(keys: set<string>, fieldPrefix: string)
    ensures |set k | k in keys :: fieldPrefix + k| == |keys|
    decreases |keys|
  {
    if keys != {} {
      var x :| x in keys;
      var rest := keys - {x};
      PrefixPreservesCount(rest, fieldPrefix);
      var image := set k | k in keys :: fieldPrefix + k;
      var restImage := set k | k in rest :: fieldPrefix + k;
      assert image == restImage + {fieldPrefix + x};
      PrefixInjective(fieldPrefix);
      assert fieldPrefix + x !in restImage;
    }
  }

  /** Different keys get different prefixed names. */
  lemma PrefixInjective(fieldPrefix: string)
    ensures forall a, b :: fieldPrefix + a == fieldPrefix + b ==> a == b
  {
    forall a, b | fieldPrefix + a == fieldPrefix + b
      ensures a == b
    {
      assert a == (fieldPrefix + a)[|fieldPrefix|..];
      assert b == (fieldPrefix + b)[|fieldPrefix|..];
    }
  }

  /** A key that starts with `fieldPrefix` is `fieldPrefix` followed by the
      rest of the key. */
  lemma PrefixSplit(key: string, fieldPrefix: string)
    requires |fieldPrefix| <= |key| && key[..|fieldPrefix|] == fieldPrefix
    ensures key == fieldPrefix + key[|fieldPrefix|..]
  {
    assert key == key[..|fieldPrefix|] + key[|fieldPrefix|..];
  }

  /** Removes `fieldPrefix` from every key that carries it, dropping the others. */
  function StripPrefix<V>(m: map<string, V>, fieldPrefix: string): (r: map<string, V>)
    ensures forall k | k in r :: fieldPrefix + k in m && r[k] == m[fieldPrefix + k]
    ensures forall k | fieldPrefix + k in m :: k in r
  {
    var n := |fieldPrefix|;
    var carries := set pk | pk in m && n <= |pk| && pk[..n] == fieldPrefix;
    forall pk | pk in carries
      ensures pk == fieldPrefix + pk[n..]
    {
      PrefixSplit(pk, fieldPrefix);
    }
    var r := map pk | pk in carries :: pk[n..] := m[pk];
    forall k | fieldPrefix + k in m
      ensures k in r
    {
      assert (fieldPrefix + k)[..n] == fieldPrefix && (fieldPrefix + k)[n..] == k;
      assert fieldPrefix + k in carries;
    }
    r
  }

  /** The renaming of the new API loses nothing: stripping the prefix again
      gives back the incident. */
  lemma PrepareIncidentRoundTrip<V>(incident: map<string, V>, fieldPrefix: string)
    ensures StripPrefix(PrepareIncident(false, incident, fieldPrefix), fieldPrefix) == incident
  {
    var r := PrepareIncident(false, incident, fieldPrefix);
    StripUndoesPrefix(incident, r, StripPrefix(r, fieldPrefix), fieldPrefix);
  }

  /** The round trip, stated over any maps with the two renaming contracts. */
  lemma StripUndoesPrefix<V>(incident: map<string, V>, r: map<string, V>, back: map<string, V>, fieldPrefix: string)
    requires r.Keys == set k | k in incident :: fieldPrefix + k
    requires forall k | k in incident :: fieldPrefix + k in r && r[fieldPrefix + k] == incident[k]
    requires forall k | k in back :: fieldPrefix + k in r && back[k] == r[fieldPrefix + k]
    requires forall k | fieldPrefix + k in r :: k in back
    ensures back == incident
  {
    PrefixInjective(fieldPrefix);
    forall k | k in back
      ensures k in incident && back[k] == incident[k]
    {
      var k0 :| k0 in incident && fieldPrefix + k == fieldPrefix + k0;
    }
    assert back.Keys == incident.Keys;
  }

  /** The `error` object of a ServiceNow error response. */
  datatype ErrorBody = ErrorBody(message: string, detail: string)

  /** A ServiceNow error response; its `error` may be null. */
  datatype ServiceNowError = ServiceNowError(error: Option<ErrorBody>)

  /** The head both fallback texts of `createErrorMessage` share. */
  const UnknownPrefix: string := "unknown: "
  const NullResponseMessage: string := UnknownPrefix + "errorResponse was null"
  const NoErrorMessage: string := UnknownPrefix + "no error in error response"

  /** A fallback text starts with "unknown" and has no colon before index 7. */
  lemma FallbackHead(tail: string)
    ensures (UnknownPrefix + tail)[..7] == "unknown"
    ensures forall i :: 0 <= i < 7 ==> (UnknownPrefix + tail)[i] != ':'
  {
    assert (UnknownPrefix + tail)[..7] == UnknownPrefix[..7];
  }

  /** `createErrorMessage`: a fixed text for a null response and for a
      response without an error, otherwise `message: detail`. */
  function CreateErrorMessage(errorResponse: Option<ServiceNowError>): (r: string)
    ensures errorResponse.None? ==> r == NullResponseMessage
    ensures errorResponse.Some? && errorResponse.value.error.None? ==> r == NoErrorMessage
    ensures errorResponse.Some? && errorResponse.value.error.Some? ==>
      var e := errorResponse.value.error.value;
      && |r| == |e.message| + 2 + |e.detail|
      && r[..|e.message|] == e.message
      && r[|e.message|..|e.message| + 2] == ": "
      && r[|e.message| + 2..] == e.detail
  {
    match errorResponse
    case None => NullResponseMessage
    case Some(response) =>
      match response.error
      case None => NoErrorMessage
      case Some(e) => e.message + ": " + e.detail
  }

  /** The two fallbacks are told apart from each other, and from every
      formatted message whose text does not start with "unknown". */
  lemma {:induction false} ErrorMessageFallbacksDistinct(errorResponse: Option<ServiceNowError>)
    requires errorResponse.Some? && errorResponse.value.error.Some?
    requires var m := errorResponse.value.error.value.message; !(|m| >= 7 && m[..7] == "unknown")
    ensures CreateErrorMessage(errorResponse) != NullResponseMessage
    ensures CreateErrorMessage(errorResponse) != NoErrorMessage
    ensures NullResponseMessage != NoErrorMessage
  {
    var e := errorResponse.value.error.value;
    var r := CreateErrorMessage(errorResponse);
    FallbackHead("errorResponse was null");
    FallbackHead("no error in error response");
    assert NullResponseMessage[9] == 'e' && NoErrorMessage[9] == 'n';
    if |e.message| >= 7 {
      assert r[..7] == e.message[..7];
    } else {
      assert r[|e.message|] == ':';
    }
  }

  /** The requires of `ErrorMessageFallbacksDistinct` is needed: an error
      whose message is "unknown" and whose detail is the rest of a fallback
      text formats to that fallback. */
  lemma ErrorMessageFallbackCollision()
    ensures CreateErrorMessage(Some(ServiceNowError(Some(ErrorBody("unknown", "errorResponse was null"))))) == NullResponseMessage
    ensures CreateErrorMessage(Some(ServiceNowError(Some(ErrorBody("unknown", "no error in error response"))))) == NoErrorMessage
  {
    assert "unknown" + ": " == UnknownPrefix;
  }

  /** A JavaScript value, as far as truthiness goes. `Object` stands for any
      object or function. */
  datatype JsValue = Undefined | Null | Bool(b: bool) | Number(n: int) | Str(s: string) | Object

  /** The falsy values of JavaScript that a `JsValue` can hold. */
  const FalsyValues: set<JsValue> := {Undefined, Null, Bool(false), Number(0), Str("")}

  /** JavaScript truthiness: every value except the five falsy ones. */
  function Truthy(v: JsValue): (r: bool)
    ensures r <==> v !in FalsyValues
  {
    match v
    case Undefined => false
    case Null => false
    case Bool(b) => b
    case Number(n) => n != 0
    case Str(s) => s != ""
    case Object => true
  }

  const MessagePrefix: string := "[Action][ExternalService] "

  function UnsupportedMessage(subAction: string): string {
    MessagePrefix + "Unsupported subAction type " + subAction + "."
  }

  function NotImplementedMessage(subAction: string): string {
    MessagePrefix + "subAction " + subAction + " not implemented."
  }

  /** `api[subAction]` is truthy; an absent key reads as `undefined`, so an
      absent sub-action is never provided. */
  function ApiHas(api: map<string, JsValue>, subAction: string): (r: bool)
    ensures r <==> Truthy(if subAction in api then api[subAction] else Undefined)
    ensures r ==> subAction in api && api[subAction] !in FalsyValues
  {
    subAction in api && Truthy(api[subAction])
  }

  /** `throwIfSubActionIsNotSupported`: first rejects a sub-action the api
      does not provide, then one that is not in the supported list; passes
      iff both checks pass. The thrown error is the `Fail` value. */
  function ThrowIfSubActionIsNotSupported(api: map<string, JsValue>, subAction: string, supportedSubActions: seq<string>): (r: Outcome<string>)
    ensures r.Pass? <==> ApiHas(api, subAction) && subAction in supportedSubActions
    ensures !ApiHas(api, subAction) ==> r == Fail(UnsupportedMessage(subAction))
    ensures ApiHas(api, subAction) && subAction !in supportedSubActions ==> r == Fail(NotImplementedMessage(subAction))
  {
    if !ApiHas(api, subAction) then Fail(UnsupportedMessage(subAction))
    else if subAction !in supportedSubActions then Fail(NotImplementedMessage(subAction))
    else Pass
  }

  /** The two rejections never share a message, so the message tells which
      check failed; and each message names its sub-action unambiguously. */
  lemma {:induction false} SubActionMessagesDistinct(a: string, b: string)
    ensures UnsupportedMessage(a) != NotImplementedMessage(b)
    ensures UnsupportedMessage(a) == UnsupportedMessage(b) ==> a == b
    ensures NotImplementedMessage(a) == NotImplementedMessage(b) ==> a == b
  {
    var n := |MessagePrefix|;
    assert UnsupportedMessage(a)[n] == 'U';
    assert NotImplementedMessage(b)[n] == 's';
    var u := |MessagePrefix + "Unsupported subAction type "|;
    if UnsupportedMessage(a) == UnsupportedMessage(b) {
      assert UnsupportedMessage(a)[u..|UnsupportedMessage(a)| - 1] == a;
      assert UnsupportedMessage(b)[u..|UnsupportedMessage(b)| - 1] == b;
    }
    var v := |MessagePrefix + "subAction "|;
    if NotImplementedMessage(a) == NotImplementedMessage(b) {
      assert NotImplementedMessage(a)[v..|NotImplementedMessage(a)| - 17] == a;
      assert NotImplementedMessage(b)[v..|NotImplementedMessage(b)| - 17] == b;
    }
  }
}

=== FILE: wrappers.dfy ===
/** The `Option` and `Outcome` datatypes shared by every module.
    `Option` stands for a JavaScript value that may be `undefined`/`null`;
    `Outcome` stands for a validator that either returns or throws an `Error`. */
module Wrappers {

  /** A possibly absent value: `None` is `undefined` (or `null`). */
  datatype Option<+T> = None | Some(value: T)

  /** The result of a check that returns normally (`Pass`) or throws (`Fail`). */
  datatype Outcome<+E> = Pass | Fail(error: E)
}
